=== FILE: README.md ===
# Coffee-run simulation core in Dafny

This project models the per-tick simulation of the coffee-run side-scroller:
the player's vertical physics and power-up state machine, obstacles and their
manager (move, cull, spawn timer, spawn throttle, type-dependent placement,
collision query, reset), the simple collectible entity, the game orchestrator
(one tick, the difficulty controller, the collision pipeline, the restart, the
input dispatch and the frame-time clamp) and the path normaliser. Everything is
immutable records and pure functions.

Modules, one per source file:

- `Shapes` (`shapes.dfy`): the bounding box `Rect`, the rectangle-test
  parameter type `Overlap`, and `Option`.
- `PathUtils` (`path_utils.dfy`): `normalizePath`.
- `Collectibles` (`collectibles.dfy`): the 30x30 collectible that moves 3 per
  tick.
- `Obstacles` (`obstacles.dfy`): `Obstacle` and `ObstacleManager`.
- `Players` (`player.dfy`): `Player` and its power-up table.
- `Game` (`game.dfy`): the `Game` class's simulation logic.

Modelling conventions:

- Coordinates, velocities and durations are `real`. Score, frame, level and
  timer counters are `int`. IEEE rounding is not modelled.
- Fields that a constructor sets once and nothing reassigns are module
  constants. These are the player's size, gravity and jump force, the
  collectible's size and speed, and the obstacle speed. Fields that vary or
  are reassigned stay record fields: obstacle width and height (set by type)
  and the player's `speed` factor (reassigned when a boost expires).
- `Math.random()` draws are inputs `rType` and `rY` in [0, 1).
- The wall-clock wobble `Math.sin(Date.now() / 100) * 10` is an input `wobble`
  in [-10, 10].
- The global rectangle test `checkCollision(a, b)` is defined outside the
  modelled files. It is a parameter `overlaps`, and nothing is assumed about it.
- `CollectibleManager` is outside the modelled files. The game state keeps
  only its `spawnInterval`, which is the one field the game writes. Its
  `checkCollisions` answer is a tick input `Option<Pickup>` with non-negative
  points. Its `update` and `reset` are dropped.
- Effect names stay strings, as in the source. `Players.ParseEffect` maps the
  four known names to a closed `Effect` type. The empty string stands for a
  missing (falsy) effect.
- `Math.floor(score / 100)` is Dafny's `/`. For the positive divisor 100 that
  rounds down, so it agrees for every score.

Behaviour kept as the code has it:

- The obstacle manager's `update` takes no argument. The world speed passed at
  the call site is dropped, so obstacles always move 5 per tick.
- The player clamps at y + 40 = 600, but the game ends once y + 40 > 580. So
  touching the floor ends the game.
- The passive score is paid even on the tick whose collisions ended the game.
  Double points is read after the collision phase. So a pickup of double
  points doubles that same tick's passive point.
- `resetGame` puts the level back to 1 and the speed back to the base speed.
  It does not reset the spawn intervals, and `ObstacleManager.reset` does not
  either. Score 0 earns level 1, so the next tick does not recompute them.
  The previous session's intervals survive (`Game.StaleIntervalsAfterReset`).
- `resetGame` ends by calling `gameLoop` with no timestamp. That call forgets
  the last timestamp and runs one tick at once, on a time step that is not a
  number. So a restarted game shows frame 1, a player that has already fallen
  half a pixel, and an obstacle timer of 1 (`Game.Restart`). Only the new
  player's effect timers see that step, and they are all off
  (`Game.RestartIgnoresStep`).
- Two `resetGame` methods are defined. The later one is in force, and it is
  the one modelled.

## Model

| member | source | states |
|---|---|---|
| `PathUtils.NormalizePath` | js/pathUtils.js:2-5 | result has the input's length; every `\` becomes `/`, every other character is unchanged at its index; no backslash remains |
| `PathUtils.NormalizeIdempotent` | js/pathUtils.js:4 | normalising twice equals normalising once |
| `PathUtils.NormalizeFixedPoints` | js/pathUtils.js:4 | a path is returned unchanged exactly when it has no backslash |
| `PathUtils.NormalizeConcat` | js/pathUtils.js:4 | the rewrite distributes over concatenation (it is per character) |
| `Collectibles.NewCollectible` | js/collectibles.js:2-9 | a new collectible has the given position and type |
| `Collectibles.Update` | js/collectibles.js:11-13 | one update moves x left by exactly 3 and keeps y and type |
| `Collectibles.GetBounds` | js/collectibles.js:20-27 | the bounds are the current position with size 30x30 |
| `Collectibles.AdvanceDrifts` | js/collectibles.js:11-13 | n updates move x left by exactly 3n and change nothing else |
| `Collectibles.BoundsAfterAdvance` | js/collectibles.js:2-27 | a new collectible's bounds after n updates are (x - 3n, y, 30, 30) |
| `Obstacles.NewObstacle` | js/obstacles.js:2-33 | position and type as given; width and height are the type's table entry (cabinet 60x100, chair 50x70, monitor 40x40, printer 80x60, other 50x80) |
| `Obstacles.Move` | js/obstacles.js:50-52 | update moves x left by exactly 5 and changes nothing else |
| `Obstacles.GetBounds` | js/obstacles.js:82-89 | bounds are the obstacle's position and size |
| `Obstacles.MoveKeepsShape` | js/obstacles.js:50-52 | a move keeps the type-fixed size, shifts the bounds by -5, and the moved obstacle is offscreen iff its right edge was within 5 of the left border |
| `Obstacles.MoveAll` | js/obstacles.js:110 | every obstacle is moved, in order |
| `Obstacles.Cull` | js/obstacles.js:113 | the result holds exactly the input's obstacles that are not offscreen (x + width < 0) |
| `Obstacles.CullAppend` | js/obstacles.js:113 | culling commutes with concatenation, so relative order is kept |
| `Obstacles.CullSingle` | js/obstacles.js:91-93 | one obstacle survives culling iff it is not offscreen |
| `Obstacles.CullKeepsOnscreen` | js/obstacles.js:113 | a list with nothing offscreen is kept unchanged |
| `Obstacles.CullKeepsShape` | js/obstacles.js:113 | culling keeps every obstacle's type-fixed size |
| `Obstacles.NewManager` | js/obstacles.js:97-106 | a new manager is empty, with timer 0, interval 120, minimum distance 300 |
| `Obstacles.PickKind` | js/obstacles.js:135 | each of the four spawnable types, in the order of the list at js/obstacles.js:103, takes its own quarter of the draw: cabinet below 0.25, chair in [0.25, 0.5), monitor in [0.5, 0.75), printer from 0.75 |
| `Obstacles.SpawnObstacle` | js/obstacles.js:127-153 | when throttled (non-empty and width - last.x < minDistance) nothing changes; otherwise exactly one obstacle is appended at x = gameWidth, of the type the draw picks and of that type's size; cabinets at gameHeight - 100, monitors in [50, gameHeight - 150), chairs and printers in (gameHeight - h - 100, gameHeight - h] |
| `Obstacles.ThrottleScenario` | js/obstacles.js:128-133 | a spawn 50 from the edge with minimum distance 300 appends nothing |
| `Obstacles.Update` | js/obstacles.js:108-121 | the culled moved list is a prefix of the result, with at most one more obstacle and none unless the timer reached the interval, and once it has, exactly the result of a spawn attempt on the culled list; the timer restarts at 0 on reaching the interval even if the spawn was throttled; with interval >= 1 the timer ends below it; interval and geometry unchanged |
| `Obstacles.CheckCollision` | js/obstacles.js:155-161 | true iff some live obstacle's bounds overlap the player's bounds under the rectangle test |
| `Obstacles.Reset` | js/obstacles.js:163-166 | no obstacles and timer 0; interval, minimum distance and geometry unchanged |
| `Obstacles.NewManagerValid` | js/obstacles.js:97-106 | a new manager satisfies the manager invariant |
| `Obstacles.UpdateKeepsValid` | js/obstacles.js:108-121 | from any positive interval and non-negative timer, an update yields 0 <= timer < interval with every obstacle sized by its type |
| `Obstacles.ResetKeepsValid` | js/obstacles.js:163-166 | reset keeps the manager invariant |
| `Obstacles.MoveAllKeepsShape` | js/obstacles.js:110 | moving every obstacle keeps each one's type-fixed size |
| `Players.ParseEffect` | js/player.js:14-19 | exactly the four names speed, invincible, magnet, double_points select an effect |
| `Players.NewPlayer` | js/player.js:2-20 | at x = baseX, velocity 0, speed 1, all four effects inactive with duration 0, magnet range 300 |
| `Players.Decay` | js/player.js:133-138 | an active effect loses exactly dt and stays active iff time is left; an inactive one is untouched |
| `Players.UpdatePowerUps` | js/player.js:131-151 | every effect decays by dt as above; afterwards no effect is active with duration <= 0; an expiring boost restores speed 1; nothing else changes |
| `Players.DecayExpiresOnTime` | js/player.js:134-137 | for dt >= 0 the remaining time never grows, and the effect ends on the first step with duration <= dt |
| `Players.Fall` | js/player.js:23-30 | gravity 0.5 is added to velocity, then velocity to y; if the bottom passes 600 it is clamped there with velocity 0 |
| `Players.Boost` | js/player.js:33-46 | without an active boost x = baseX; while score < target, x in [baseX+40, baseX+60]; once score >= target, x = baseX and the boost is switched off |
| `Players.UpdateSpec` | js/player.js:22-50 | after an update the bottom is at most 600, velocity is 0 when clamped, x follows the boost rule, effects decay by exactly dt (the boost only while its target is unmet), no active effect has duration <= 0, and speed 1 and the clamp are kept |
| `Players.Jump` | js/player.js:52-55 | velocity becomes jumpForce x speed = -10 for a valid player; nothing else changes |
| `Players.GetBounds` | js/player.js:102-109 | the bounds are the current position with size 40x40 |
| `Players.ApplyPowerUp` | js/player.js:111-129 | a falsy or unknown name changes nothing; a known effect becomes active with exactly the given duration, others untouched; a speed boost targets score + 50 |
| `Players.RefreshNotStack` | js/player.js:115-116 | applying an effect twice keeps only the second duration (and for speed the second target); it equals applying it once with the second values |
| `Game.NewGame` | js/game.js:24-38 | score 0, frame 0, not started, not over, level 1 at speed 5, no last timestamp, a new player at (200, 300) and a new obstacle manager for the 800 x 600 canvas, as `init` builds them at js/game.js:67-68 |
| `Game.LevelMonotone` | js/game.js:164-167 | for scores 0 <= s1 <= s2 the earned levels satisfy 1 <= level(s1) <= level(s2) <= 10 |
| `Game.IntervalBounds` | js/game.js:177-186 | intervals never drop below 60 and 90; for levels 1..10 they lie in [75, 120] and [108, 180] |
| `Game.UpdateDifficulty` | js/game.js:162-189 | level becomes min(10, score div 100 + 1); when it is unchanged nothing changes; when it changes, speed = 5 + (level-1) x 0.5 and the obstacle and collectible intervals are recomputed, nothing else |
| `Game.Multiplier` | js/game.js:361 | the multiplier is 2 iff double points is active, else 1 |
| `Game.CheckCollisions` | js/game.js:336-369 | the game is over afterwards iff it was or the bottom passed 580, or y < 0, or a non-invincible player overlaps an obstacle; such a tick changes nothing else; otherwise no pickup changes nothing, and a pickup adds points x multiplier and then applies its effect with the post-award score |
| `Game.Tick` | js/game.js:144-160 | a game-over state is returned unchanged; otherwise the frame counter grows by 1, the level is the one the old score earns, the score does not decrease, and the started flag and timestamp are kept; the obstacle manager is exactly one `Obstacles.Update` of the manager after the difficulty step, and, unless a pickup in a game that goes on changes it further, the player is exactly one `Players.Update` (fall, boost, effect decay) with the tick's step and the old score |
| `Game.PassiveScoring` | js/game.js:156-159 | the passive increment is 1, or 2 under double points, on frames divisible by 10, else 0, and it is the last change of a tick |
| `Game.FatalTickIgnoresPickup` | js/game.js:336-359 | on a tick that ends the game the collectible answer is irrelevant, the player is the updated one, and the score moves only by the passive increment |
| `Game.ObstacleEndsGame` | js/game.js:349-353 | an overlapping obstacle with invincibility off ends the game that tick |
| `Game.PickupAppliesEffect` | js/game.js:150-153 | on a surviving tick a pickup awards points x multiplier; its effect is active at the end of the tick with its full duration, and a speed boost targets the post-award score + 50 |
| `Game.CoffeeScenario` | js/game.js:356-367 | a 10-point 8000 ms speed item at score 40 without double points gives score 50, speed active for 8000, target 100 |
| `Game.DoublePointsScenario` | js/game.js:361-362 | under double points a 15-point item adds 30 |
| `Game.NewGameInv` | js/game.js:30-38 | the initial state satisfies the session invariant |
| `Game.AdvanceKeepsInv` | js/game.js:147-151 | the pre-collision steps keep the invariant and leave the level at the one the score earns |
| `Game.TickKeepsInv` | js/game.js:144-160 | a tick keeps the invariant: score >= 0, 1 <= level <= earned level, speed matches the level, obstacle interval in [75, 120], valid manager and player |
| `Game.LevelNeverDecreases` | js/game.js:164-171 | within a session a tick never lowers the level |
| `Game.ResetGame` | js/game.js:424-436 | score 0, frame 0, not over, level 1 at base speed, a new player at (200, 300), the obstacle manager reset (no obstacles and timer 0, its interval, distance and geometry kept); the collectible interval and the last timestamp kept |
| `Game.ResetKeepsInv` | js/game.js:424-434 | a restart keeps the session invariant |
| `Game.Restart` | js/game.js:424-440 | after the closing loop call: frame 1, no last timestamp, level 1, player at (200, 300.5) falling at 0.5, spawn intervals kept; with an obstacle interval above 1 the game is not over, there are no obstacles, the timer is 1 and the score is only what was collected; with nothing collected the score is 0 |
| `Game.RestartIgnoresStep` | js/game.js:120-140 | the closing tick of a restart gives the same state for every time step and wobble |
| `Game.RestartKeepsInv` | js/game.js:424-440 | a full restart keeps the session invariant |
| `Game.StaleIntervalsAfterReset` | js/game.js:170-187 | after a restart and the next tick, with nothing collected, both previous spawn intervals are still in force at level 1 |
| `Game.ApplyPowerUp` | js/game.js:80-83 | the game's applyPowerUp is exactly the player's, since its falsy-name guard is redundant |
| `Game.StartGame` | js/game.js:111-118 | the session is started and the frame clock has no last timestamp |
| `Game.PressSpace` | js/game.js:90-99 | space starts an unstarted session, jumps in a running one, does nothing once over |
| `Game.Click` | js/game.js:101-105 | a click changes the state only in a running session, and then only by a jump |
| `Game.InputKeepsInv` | js/game.js:90-105 | neither input changes the score, the difficulty or the obstacle manager, and both keep the invariant |
| `Game.RunKeepsInv` | js/game.js:144-160 | over any sequence of ticks the invariant holds, score and level never go down, and the started flag is kept |
| `Game.GameOverIsTerminal` | js/game.js:145 | once the game is over, any sequence of ticks leaves the state unchanged |
| `Game.RunCountsFrames` | js/game.js:145-147 | a run that ends not over has advanced the frame counter by exactly its number of ticks |
| `Game.FrameDelta` | js/game.js:123-136 | a step is produced iff a truthy last timestamp lies at least 1000/60 ms back; a step lies in [1000/60, 1000/30] and is the smaller of the elapsed time and the cap |
| `Game.Frame` | js/game.js:120-142 | a game-over state is untouched; otherwise the timestamp is recorded, a skipped or first frame runs no tick, and a produced step runs one tick with that step on the state with the new timestamp |
| `Game.FrameKeepsInv` | js/game.js:120-142 | an animation frame keeps the session invariant |
| `Game.FrameAfterRestartSkips` | js/game.js:124-126 | the first animation frame after a restart runs no tick: it only records its timestamp, or does nothing if the restart tick ended the game |

## Left out

- Rendering: `render`, `renderScore`, `renderPowerUps`, and the `render` of player, obstacle and collectible. These only draw on the canvas.
- DOM screens, loading progress, `init`'s asynchronous resource wait and error screen. These are user interface and I/O.
- Audio calls in `jump`, `checkCollisions`, `gameOver` and `startGame`. Playback is fire-and-forget and changes no game state.
- `requestAnimationFrame` scheduling. Only the time-step logic of `gameLoop` is modelled, as `Game.FrameDelta` and `Game.Frame`.
- Game.Restart: runs the closing tick of `resetGame` with step 0 and wobble 0 in place of the source's not-a-number step, which real numbers cannot express; `Game.RestartIgnoresStep` shows the choice does not matter. The animation-frame chain that call starts is scheduling and is left out with the rest.
- `CollectibleManager` (constructor, `update`, `checkCollisions`, `reset`, magnet pull). It is not part of this model. Its collision answer is an input. Its reset is taken to leave its spawn interval alone, as the obstacle manager's does.
- The global `checkCollision` rectangle test. It is not part of this model and is taken as a parameter.
- Asset loading, audio manager and audio controls (`resourceLoader.js`, `imageLoader.js`, `audioManager.js`, `audioControls.js`). These are asynchronous I/O.
- `checkBrowserCompatibility`. It is DOM feature detection.
- The game's empty `updatePowerUps` and `updateCollectibles`. They do nothing.
- The first `resetGame` (game.js:321-330). The second definition overrides it.
- `Obstacle.getColor` and the obstacle `color` field. They are visual only.
- The manager's `lastObstacleX` and the player's `isInvincible`. Both are written once and never read.
- Effect names that JavaScript resolves through the object prototype (`constructor`, `__proto__`). They are treated as unknown names. The source sets fields on shared prototype objects for them, which does not change the four effects.
- Floating-point rounding. All coordinates and durations are exact reals.
- Game.Inv: does not constrain the collectible manager's spawn interval, because its initial value comes from a constructor outside this model. `Game.UpdateDifficulty` and `Game.IntervalBounds` state its value and range after every level change.

=== FILE: collectibles.dfy ===
/** The simple collectible entity: a 30x30 item that drifts left by a fixed
    speed of 3 per tick. Its size and speed are assigned once by the
    constructor and never again, so they are constants here. */
module Collectibles {
  import opened Shapes

  const Size: real := 30.0
  const Speed: real := 3.0

  /** `kind` is the item's type name, kept as given. */
  datatype Collectible = Collectible(x: real, y: real, kind: string)

  function NewCollectible(x: real, y: real, kind: string): (c: Collectible)
    ensures c.x == x && c.y == y && c.kind == kind
  {
    Collectible(x, y, kind)
  }

  /** One tick of motion: the item moves left by its speed. */
  function Update(c: Collectible): (r: Collectible)
    ensures r.y == c.y && r.kind == c.kind
    ensures c.x - r.x == Speed
  {
    c.(x := c.x - Speed)
  }

  function GetBounds(c: Collectible): (b: Rect)
    ensures b.x == c.x && b.y == c.y
    ensures b.width == Size && b.height == Size
  {
    Rect(c.x, c.y, Size, Size)
  }

  /** `n` consecutive ticks of motion. */
  function Advance(c: Collectible, n: nat): Collectible
    decreases n
  {
    if n == 0 then c else Advance(Update(c), n - 1)
  }

  /** After `n` ticks an item has moved exactly `3n` to the left and nothing
      else about it has changed. */
  lemma {:induction false} AdvanceDrifts(c: Collectible, n: nat)
    ensures Advance(c, n) == c.(x := c.x - Speed * n as real)
    decreases n
  {
    if n > 0 {
      AdvanceDrifts(Update(c), n - 1);
    }
  }

  /** The bounds follow the item: after `n` ticks they are the original
      bounds shifted left by `3n`, still 30x30. */
  lemma BoundsAfterAdvance(x: real, y: real, kind: string, n: nat)
    ensures GetBounds(Advance(NewCollectible(x, y, kind), n)) == Rect(x - 3.0 * n as real, y, 30.0, 30.0)
  {
    AdvanceDrifts(NewCollectible(x, y, kind), n);
  }
}

=== FILE: game.dfy ===
/** The game orchestrator: one simulation tick (frame counter, difficulty,
    player, obstacles, collisions, passive score), the difficulty controller,
    the collision pipeline, the restart, the input dispatch and the frame
    time clamp.

    The collectible manager is outside this model except for the one field
    the game writes, its spawn interval. Its per-tick update is dropped and
    the result of its collision scan reaches a tick as the `pickup` input. */
module Game {
  import opened Shapes
  import Players
  import Obstacles

  const CanvasWidth: real := 800.0
  const CanvasHeight: real := 600.0
  /** The floor strip: the game ends once the player's bottom edge is lower
      than 20 above the canvas bottom. */
  const FloorMargin: real := 20.0
  const BaseSpeed: real := 5.0
  const MaxLevel: int := 10
  const PointsToNextLevel: int := 100
  const SpeedIncreasePerLevel: real := 0.5
  /** The passive score is paid on every tenth frame. */
  const ScorePeriod: int := 10
  /** Frame time bounds in milliseconds: ticks shorter than a 60 FPS frame
      are skipped, longer ones are cut to a 30 FPS frame. */
  const MinFrame: real := 1000.0 / 60.0
  const MaxFrame: real := 1000.0 / 30.0

  datatype Difficulty = Difficulty(level: int, currentSpeed: real)

  /** What the collectible manager's collision scan hands back for a
      collected item: its points, its effect name ("" when it has none) and
      the effect's duration. */
  datatype Pickup = Pickup(points: nat, effect: string, duration: real)

  datatype GameState = GameState(
    score: int,
    frameCount: int,
    isGameOver: bool,
    isGameStarted: bool,
    lastTimestamp: Option<real>,
    difficulty: Difficulty,
    player: Players.Player,
    obstacles: Obstacles.Manager,
    collectibleInterval: int)

  function StartPlayer(): Players.Player {
    Players.NewPlayer(CanvasWidth / 4.0, CanvasHeight / 2.0)
  }

  /** The state once resources are loaded: a player at a quarter of the
      width and half the height, an empty obstacle manager, level 1. The
      collectible manager's initial interval is set by its own constructor,
      which is not part of this model, so it is a parameter. */
  function NewGame(collectibleInterval: int): (g: GameState)
    ensures g.score == 0 && g.frameCount == 0 && !g.isGameOver && !g.isGameStarted
    ensures g.difficulty == Difficulty(1, 5.0)
    ensures g.player == Players.NewPlayer(200.0, 300.0)
    ensures g.obstacles == Obstacles.NewManager(800.0, 600.0)
    ensures g.lastTimestamp.None?
    ensures g.collectibleInterval == collectibleInterval
  {
    GameState(0, 0, false, false, None, Difficulty(1, BaseSpeed), StartPlayer(),
      Obstacles.NewManager(CanvasWidth, CanvasHeight), collectibleInterval)
  }

  // ---------------------------------------------------------------- difficulty

  /** The level a score earns: one level per 100 points, capped at 10.
      `Math.floor(score / 100)` is Dafny's `/`, which rounds down for a
      positive divisor. */
  function LevelFor(score: int): int {
    var l := score / PointsToNextLevel + 1;
    if l < MaxLevel then l else MaxLevel
  }

  function SpeedFor(level: int): real {
    BaseSpeed + (level - 1) as real * SpeedIncreasePerLevel
  }

  function ObstacleIntervalFor(level: int): int {
    var i := 120 - (level - 1) * 5;
    if i < 60 then 60 else i
  }

  function CollectibleIntervalFor(level: int): int {
    var i := 180 - (level - 1) * 8;
    if i < 90 then 90 else i
  }

  /** Levels run from 1 to 10 and never go down as the score grows. */
  lemma LevelMonotone(s1: int, s2: int)
    requires 0 <= s1 <= s2
    ensures 1 <= LevelFor(s1) <= LevelFor(s2) <= MaxLevel
  {
  }

  /** The spawn intervals never drop below their floors (60 and 90); over
      the levels 1 to 10 they stay within [75, 120] and [108, 180]. */
  lemma IntervalBounds(level: int)
    ensures ObstacleIntervalFor(level) >= 60 && CollectibleIntervalFor(level) >= 90
    ensures 1 <= level <= MaxLevel ==>
      && 75 <= ObstacleIntervalFor(level) <= 120
      && 108 <= CollectibleIntervalFor(level) <= 180
  {
  }

  /** `updateDifficulty`: the level follows the score; only when it changes
      are the world speed and both spawn intervals recomputed. */
  function UpdateDifficulty(g: GameState): (r: GameState)
    ensures r.difficulty.level == LevelFor(g.score)
    ensures LevelFor(g.score) == g.difficulty.level ==> r == g
    ensures LevelFor(g.score) != g.difficulty.level ==>
      && r.difficulty.currentSpeed == SpeedFor(r.difficulty.level)
      && r.obstacles == g.obstacles.(spawnInterval := ObstacleIntervalFor(r.difficulty.level))
      && r.collectibleInterval == CollectibleIntervalFor(r.difficulty.level)
      && r == g.(difficulty := r.difficulty, obstacles := r.obstacles, collectibleInterval := r.collectibleInterval)
  {
    var level := LevelFor(g.score);
    if level == g.difficulty.level then g
    else
      g.(difficulty := Difficulty(level, SpeedFor(level)),
         obstacles := g.obstacles.(spawnInterval := ObstacleIntervalFor(level)),
         collectibleInterval := CollectibleIntervalFor(level))
  }

  // ---------------------------------------------------------------- collisions

  /** Points multiplier of the double-points effect. */
  function Multiplier(p: Players.Player): (m: int)
    ensures m == 2 <==> p.powerUps.doublePoints.active
    ensures m == 1 <==> !p.powerUps.doublePoints.active
  {
    if p.powerUps.doublePoints.active then 2 else 1
  }

  predicate HitsFloor(p: Players.Player) {
    p.y + Players.Height > CanvasHeight - FloorMargin
  }

  predicate HitsCeiling(p: Players.Player) {
    p.y < 0.0
  }

  predicate HitsObstacle(g: GameState, overlaps: Overlap) {
    !g.player.powerUps.invincible.active
    && Obstacles.CheckCollision(g.obstacles.obstacles, Players.GetBounds(g.player), overlaps)
  }

  /** The conditions that end the game before collectibles are examined. */
  predicate Fatal(g: GameState, overlaps: Overlap) {
    HitsFloor(g.player) || HitsCeiling(g.player) || HitsObstacle(g, overlaps)
  }

  /** `checkCollisions`: floor, then ceiling, then obstacles (skipped while
      invincible); each ends the game and returns before collectibles are
      looked at. Otherwise a collected item pays its points, doubled under
      double points, and then applies its effect with the new score. */
  function CheckCollisions(g: GameState, pickup: Option<Pickup>, overlaps: Overlap): (r: GameState)
    ensures r.isGameOver <==> g.isGameOver || Fatal(g, overlaps)
    ensures Fatal(g, overlaps) ==> r == g.(isGameOver := true)
    ensures !Fatal(g, overlaps) && pickup.None? ==> r == g
    ensures !Fatal(g, overlaps) && pickup.Some? ==>
      var c := pickup.value;
      && r.score == g.score + c.points * Multiplier(g.player)
      && r.player == Players.ApplyPowerUp(g.player, c.effect, c.duration, r.score)
      && r == g.(score := r.score, player := r.player)
  {
    if HitsFloor(g.player) then g.(isGameOver := true)
    else if HitsCeiling(g.player) then g.(isGameOver := true)
    else if HitsObstacle(g, overlaps) then g.(isGameOver := true)
    else
      match pickup
      case None => g
      case Some(c) =>
        var score := g.score + c.points * Multiplier(g.player);
        var g1 := g.(score := score);
        if c.effect != "" then g1.(player := Players.ApplyPowerUp(g1.player, c.effect, c.duration, score))
        else g1
  }

  // ---------------------------------------------------------------- the tick

  /** The part of a tick before collisions: count the frame, recompute the
      difficulty, update the player, update the obstacles. The obstacle
      manager's update takes no speed, so the world speed is not passed. */
  function Advance(g: GameState, dt: real, wobble: real, rType: real, rY: real): GameState
    requires -10.0 <= wobble <= 10.0
    requires 0.0 <= rType < 1.0 && 0.0 <= rY < 1.0
  {
    var g1 := UpdateDifficulty(g.(frameCount := g.frameCount + 1));
    var g2 := g1.(player := Players.Update(g1.player, dt, g1.score, wobble));
    g2.(obstacles := Obstacles.Update(g2.obstacles, rType, rY))
  }

  /** The passive score: 1 point, or 2 under double points, on every tenth
      frame. */
  function PassiveScore(g: GameState): GameState {
    if g.frameCount % ScorePeriod == 0 then g.(score := g.score + Multiplier(g.player)) else g
  }

  /** `update(dt)`: nothing at all once the game is over; otherwise one
      tick. `wobble` is the speed-boost sine term, `rType` and `rY` the
      random draws of an obstacle spawn, `pickup` the collectible scan's
      answer, `overlaps` the rectangle test. */
  function Tick(g: GameState, dt: real, wobble: real, rType: real, rY: real,
                pickup: Option<Pickup>, overlaps: Overlap): (r: GameState)
    requires -10.0 <= wobble <= 10.0
    requires 0.0 <= rType < 1.0 && 0.0 <= rY < 1.0
    ensures g.isGameOver ==> r == g
    ensures !g.isGameOver ==>
      && r.frameCount == g.frameCount + 1
      && r.difficulty.level == LevelFor(g.score)
      && r.score >= g.score
      && r.isGameStarted == g.isGameStarted
      && r.lastTimestamp == g.lastTimestamp
    ensures !g.isGameOver ==>
      var g1 := UpdateDifficulty(g.(frameCount := g.frameCount + 1));
      && r.obstacles == Obstacles.Update(g1.obstacles, rType, rY)
      && (pickup.None? || r.isGameOver ==> r.player == Players.Update(g1.player, dt, g.score, wobble))
  {
    if g.isGameOver then g
    else PassiveScore(CheckCollisions(Advance(g, dt, wobble, rType, rY), pickup, overlaps))
  }

  /** The passive increment is exactly 1, or 2 while double points is active
      at the end of the collision phase, on frames divisible by 10, and 0
      otherwise; it is paid also on the tick whose collisions ended the
      game. */
  lemma PassiveScoring(g: GameState, dt: real, wobble: real, rType: real, rY: real,
                       pickup: Option<Pickup>, overlaps: Overlap)
    requires -10.0 <= wobble <= 10.0
    requires 0.0 <= rType < 1.0 && 0.0 <= rY < 1.0
    requires !g.isGameOver
    ensures var c := CheckCollisions(Advance(g, dt, wobble, rType, rY), pickup, overlaps);
      var r := Tick(g, dt, wobble, rType, rY, pickup, overlaps);
      && r.score - c.score == (if (g.frameCount + 1) % 10 == 0 then (if c.player.powerUps.doublePoints.active then 2 else 1) else 0)
      && r == c.(score := r.score)
  {
  }

  /** On a tick that ends the game nothing is collected: the answer of the
      collectible scan makes no difference, the score moves only by the
      passive increment, and the player is the one the update produced. */
  lemma FatalTickIgnoresPickup(g: GameState, dt: real, wobble: real, rType: real, rY: real,
                               pickup: Option<Pickup>, overlaps: Overlap)
    requires -10.0 <= wobble <= 10.0
    requires 0.0 <= rType < 1.0 && 0.0 <= rY < 1.0
    requires !g.isGameOver
    requires Tick(g, dt, wobble, rType, rY, pickup, overlaps).isGameOver
    ensures var r := Tick(g, dt, wobble, rType, rY, pickup, overlaps);
      && r == Tick(g, dt, wobble, rType, rY, None, overlaps)
      && r.player == Advance(g, dt, wobble, rType, rY).player
      && r.score - g.score == (if (g.frameCount + 1) % 10 == 0 then Multiplier(r.player) else 0)
  {
  }

  /** Scenario: a live obstacle overlaps the updated player while
      invincibility is off, so the tick ends the game. */
  lemma ObstacleEndsGame(g: GameState, dt: real, wobble: real, rType: real, rY: real,
                         pickup: Option<Pickup>, overlaps: Overlap, i: int)
    requires -10.0 <= wobble <= 10.0
    requires 0.0 <= rType < 1.0 && 0.0 <= rY < 1.0
    requires !g.isGameOver
    requires var a := Advance(g, dt, wobble, rType, rY);
      && !a.player.powerUps.invincible.active
      && 0 <= i < |a.obstacles.obstacles|
      && overlaps(Players.GetBounds(a.player), Obstacles.GetBounds(a.obstacles.obstacles[i]))
    ensures Tick(g, dt, wobble, rType, rY, pickup, overlaps).isGameOver
  {
  }

  /** A pickup on a surviving tick: the score gains the item's points times
      the multiplier the player had after its update; the item's effect is
      active at the end of the tick with its full duration (decay ran before
      collisions), and a speed boost aims 50 above the post-award score. */
  lemma PickupAppliesEffect(g: GameState, dt: real, wobble: real, rType: real, rY: real,
                            c: Pickup, overlaps: Overlap)
    requires -10.0 <= wobble <= 10.0
    requires 0.0 <= rType < 1.0 && 0.0 <= rY < 1.0
    requires !g.isGameOver
    requires !Fatal(Advance(g, dt, wobble, rType, rY), overlaps)
    ensures var a := Advance(g, dt, wobble, rType, rY);
      var r := Tick(g, dt, wobble, rType, rY, Some(c), overlaps);
      var awarded := g.score + c.points * Multiplier(a.player);
      && !r.isGameOver
      && r.score >= awarded
      && (Players.ParseEffect(c.effect).Some? ==>
            var e := Players.ParseEffect(c.effect).value;
            && r.player.powerUps.Get(e) == Players.Timer(true, c.duration)
            && (e == Players.SpeedBoost ==> r.player.powerUps.targetScore == awarded + 50))
  {
  }

  /** Scenario: a 10-point item carrying an 8000 ms speed boost, collected at
      score 40 without double points, takes the score to 50 and sets the
      boost target to 100. */
  lemma CoffeeScenario(g: GameState, overlaps: Overlap)
    requires g.score == 40 && !g.player.powerUps.doublePoints.active
    requires !Fatal(g, overlaps)
    ensures var r := CheckCollisions(g, Some(Pickup(10, "speed", 8000.0)), overlaps);
      && r.score == 50
      && r.player.powerUps.speed == Players.Timer(true, 8000.0)
      && r.player.powerUps.targetScore == 100
  {
  }

  /** Scenario: under double points a 15-point item is worth 30. */
  lemma DoublePointsScenario(g: GameState, effect: string, duration: real, overlaps: Overlap)
    requires g.player.powerUps.doublePoints.active
    requires !Fatal(g, overlaps)
    ensures CheckCollisions(g, Some(Pickup(15, effect, duration)), overlaps).score == g.score + 30
  {
  }

  // ---------------------------------------------------------------- invariant

  /** What holds between ticks of a running session: a non-negative score,
      a level between 1 and the level the score earns, the world speed of
      that level, an obstacle interval within [75, 120] and a valid obstacle
      manager on the 800x600 field, and a valid player at its base column. */
  ghost predicate Inv(g: GameState) {
    && g.score >= 0
    && 1 <= g.difficulty.level <= LevelFor(g.score)
    && g.difficulty.currentSpeed == SpeedFor(g.difficulty.level)
    && 75 <= g.obstacles.spawnInterval <= 120
    && Obstacles.Valid(g.obstacles)
    && g.obstacles.gameWidth == CanvasWidth
    && g.obstacles.gameHeight == CanvasHeight
    && g.obstacles.minDistance == Obstacles.MinDistance
    && Players.Valid(g.player)
    && g.player.baseX == CanvasWidth / 4.0
  }

  lemma NewGameInv(collectibleInterval: int)
    ensures Inv(NewGame(collectibleInterval))
  {
  }

  lemma AdvanceKeepsInv(g: GameState, dt: real, wobble: real, rType: real, rY: real)
    requires Inv(g)
    requires -10.0 <= wobble <= 10.0
    requires 0.0 <= rType < 1.0 && 0.0 <= rY < 1.0
    ensures var a := Advance(g, dt, wobble, rType, rY);
      && Inv(a)
      && a.difficulty.level == LevelFor(g.score)
      && a.score == g.score
  {
    var g1 := UpdateDifficulty(g.(frameCount := g.frameCount + 1));
    LevelMonotone(0, g.score);
    IntervalBounds(g1.difficulty.level);
    Players.UpdateSpec(g1.player, dt, g1.score, wobble);
    var g2 := g1.(player := Players.Update(g1.player, dt, g1.score, wobble));
    Obstacles.UpdateKeepsValid(g2.obstacles, rType, rY);
  }

  /** A tick keeps the invariant. */
  lemma TickKeepsInv(g: GameState, dt: real, wobble: real, rType: real, rY: real,
                     pickup: Option<Pickup>, overlaps: Overlap)
    requires Inv(g)
    requires -10.0 <= wobble <= 10.0
    requires 0.0 <= rType < 1.0 && 0.0 <= rY < 1.0
    ensures Inv(Tick(g, dt, wobble, rType, rY, pickup, overlaps))
  {
    if !g.isGameOver {
      var a := Advance(g, dt, wobble, rType, rY);
      AdvanceKeepsInv(g, dt, wobble, rType, rY);
      var c := CheckCollisions(a, pickup, overlaps);
      var r := Tick(g, dt, wobble, rType, rY, pickup, overlaps);
      LevelMonotone(a.score, r.score);
    }
  }

  /** Within a session the level never goes down. */
  lemma LevelNeverDecreases(g: GameState, dt: real, wobble: real, rType: real, rY: real,
                            pickup: Option<Pickup>, overlaps: Overlap)
    requires Inv(g)
    requires -10.0 <= wobble <= 10.0
    requires 0.0 <= rType < 1.0 && 0.0 <= rY < 1.0
    ensures Tick(g, dt, wobble, rType, rY, pickup, overlaps).difficulty.level >= g.difficulty.level
  {
  }

  // ---------------------------------------------------------------- restart

  /** The state changes of `resetGame` (the later of the two definitions,
      which is the one in force) before its closing call of the frame loop:
      score, frame counter and game-over flag cleared, a new player, no
      obstacles, level 1 at the base speed. The spawn intervals are left as
      they were, and so is the collectible interval, as the collectible
      manager's own reset is not part of this model. */
  function ResetGame(g: GameState): (r: GameState)
    ensures r.score == 0 && r.frameCount == 0 && !r.isGameOver
    ensures r.difficulty == Difficulty(1, 5.0)
    ensures r.player == Players.NewPlayer(200.0, 300.0)
    ensures r.obstacles == Obstacles.Reset(g.obstacles)
    ensures r.obstacles.obstacles == [] && r.obstacles.spawnTimer == 0
    ensures r.obstacles.spawnInterval == g.obstacles.spawnInterval
    ensures r.collectibleInterval == g.collectibleInterval
    ensures r.isGameStarted == g.isGameStarted && r.lastTimestamp == g.lastTimestamp
  {
    g.(score := 0, frameCount := 0, isGameOver := false, player := StartPlayer(),
       obstacles := Obstacles.Reset(g.obstacles),
       difficulty := Difficulty(1, BaseSpeed))
  }

  lemma ResetKeepsInv(g: GameState)
    requires Inv(g)
    ensures Inv(ResetGame(g))
  {
  }

  /** `resetGame` as a whole: the resets above, then `this.gameLoop()` with
      no timestamp. That call forgets the last timestamp, and its time step
      is not a number, which is not below the 60 FPS bound, so one tick runs
      at once. The step only reaches the decay of the new player's effects,
      all of which are off, and the wobble only a running speed boost, so
      the tick runs here with step 0 and wobble 0; `RestartIgnoresStep`
      shows every other choice gives the same state. The remaining inputs
      are those of any tick. */
  function Restart(g: GameState, rType: real, rY: real, pickup: Option<Pickup>, overlaps: Overlap): (r: GameState)
    requires 0.0 <= rType < 1.0 && 0.0 <= rY < 1.0
    ensures r.frameCount == 1 && r.lastTimestamp.None? && r.isGameStarted == g.isGameStarted
    ensures r.difficulty == Difficulty(1, 5.0)
    ensures r.player.x == 200.0 && r.player.y == 300.5 && r.player.velocity == 0.5
    ensures r.obstacles.spawnInterval == g.obstacles.spawnInterval
    ensures r.collectibleInterval == g.collectibleInterval
    ensures g.obstacles.spawnInterval > 1 ==>
      && !r.isGameOver
      && r.obstacles.obstacles == [] && r.obstacles.spawnTimer == 1
      && r.score == (if pickup.Some? then pickup.value.points else 0)
    ensures pickup.None? ==> r.score == 0
  {
    Tick(ResetGame(g).(lastTimestamp := None), 0.0, 0.0, rType, rY, pickup, overlaps)
  }

  /** The closing tick of a restart does not depend on its time step or
      wobble. */
  lemma RestartIgnoresStep(g: GameState, dt: real, wobble: real, rType: real, rY: real,
                           pickup: Option<Pickup>, overlaps: Overlap)
    requires -10.0 <= wobble <= 10.0
    requires 0.0 <= rType < 1.0 && 0.0 <= rY < 1.0
    ensures Tick(ResetGame(g).(lastTimestamp := None), dt, wobble, rType, rY, pickup, overlaps)
         == Restart(g, rType, rY, pickup, overlaps)
  {
  }

  lemma RestartKeepsInv(g: GameState, rType: real, rY: real, pickup: Option<Pickup>, overlaps: Overlap)
    requires Inv(g)
    requires 0.0 <= rType < 1.0 && 0.0 <= rY < 1.0
    ensures Inv(Restart(g, rType, rY, pickup, overlaps))
  {
  }

  /** Because a restart puts the level back to 1 without touching the spawn
      intervals, and score 0 earns level 1, the ticks after a restart do not
      recompute them until the score reaches 100: after the restart and the
      next tick, both with nothing collected, the intervals of the previous
      session's last level are still in force. */
  lemma StaleIntervalsAfterReset(g: GameState, rType: real, rY: real, overlaps: Overlap,
                                 dt: real, wobble: real, rType2: real, rY2: real)
    requires 0.0 <= rType < 1.0 && 0.0 <= rY < 1.0
    requires -10.0 <= wobble <= 10.0
    requires 0.0 <= rType2 < 1.0 && 0.0 <= rY2 < 1.0
    ensures var r := Tick(Restart(g, rType, rY, None, overlaps), dt, wobble, rType2, rY2, None, overlaps);
      && r.obstacles.spawnInterval == g.obstacles.spawnInterval
      && r.collectibleInterval == g.collectibleInterval
      && r.difficulty.level == 1
  {
  }

  // ---------------------------------------------------------------- power-ups

  /** The game's `applyPowerUp` forwards to the player after a falsy-name
      check; the check changes nothing because the player ignores a falsy
      name too. */
  function ApplyPowerUp(g: GameState, effect: string, duration: real, score: int): (r: GameState)
    ensures r == g.(player := Players.ApplyPowerUp(g.player, effect, duration, score))
  {
    if effect == "" then g else g.(player := Players.ApplyPowerUp(g.player, effect, duration, score))
  }

  // ---------------------------------------------------------------- input

  /** `startGame`: the session is running and the frame clock forgets its
      last timestamp. */
  function StartGame(g: GameState): (r: GameState)
    ensures r.isGameStarted && r.lastTimestamp.None?
    ensures r == g.(isGameStarted := true, lastTimestamp := None)
  {
    g.(isGameStarted := true, lastTimestamp := None)
  }

  /** The space key: starts a session that has not started, otherwise jumps
      unless the game is over. */
  function PressSpace(g: GameState): (r: GameState)
    ensures !g.isGameStarted ==> r == StartGame(g)
    ensures g.isGameStarted && !g.isGameOver ==> r == g.(player := Players.Jump(g.player))
    ensures g.isGameStarted && g.isGameOver ==> r == g
  {
    if !g.isGameStarted then StartGame(g)
    else if !g.isGameOver then g.(player := Players.Jump(g.player))
    else g
  }

  /** A click on the canvas jumps only in a running session. */
  function Click(g: GameState): (r: GameState)
    ensures r != g ==> g.isGameStarted && !g.isGameOver
    ensures g.isGameStarted && !g.isGameOver ==> r == g.(player := Players.Jump(g.player))
  {
    if g.isGameStarted && !g.isGameOver then g.(player := Players.Jump(g.player)) else g
  }

  /** Neither input changes the score, the difficulty or the obstacles, and
      a jump keeps the invariant. */
  lemma InputKeepsInv(g: GameState)
    requires Inv(g)
    ensures Inv(PressSpace(g)) && Inv(Click(g))
    ensures PressSpace(g).score == g.score && Click(g).score == g.score
    ensures PressSpace(g).difficulty == g.difficulty && Click(g).difficulty == g.difficulty
    ensures PressSpace(g).obstacles == g.obstacles && Click(g).obstacles == g.obstacles
  {
  }

  // ---------------------------------------------------------------- frame clock

  /** A timestamp counts as present only when it is neither missing nor 0
      (the loop tests it for truthiness). */
  predicate Present(t: Option<real>) {
    t.Some? && t.value != 0.0
  }

  /** The time step the loop hands to a tick, or None when the frame is
      skipped: the elapsed time since the last timestamp (0 when there is
      none), cut to a 30 FPS frame, and skipped below a 60 FPS frame. */
  function FrameDelta(last: Option<real>, now: real): (d: Option<real>)
    ensures d.Some? <==> Present(last) && now - last.value >= MinFrame
    ensures d.Some? ==> MinFrame <= d.value <= MaxFrame
    ensures d.Some? ==> d.value == if now - last.value < MaxFrame then now - last.value else MaxFrame
  {
    var start := if Present(last) then last.value else now;
    var elapsed := now - start;
    var delta := if elapsed < MaxFrame then elapsed else MaxFrame;
    if delta < MinFrame then None else Some(delta)
  }

  /** One animation frame of `gameLoop` at time `now`: nothing once the
      game is over; otherwise remember `now` and run a tick with the clamped
      time step unless the frame is skipped. */
  function Frame(g: GameState, now: real, wobble: real, rType: real, rY: real,
                 pickup: Option<Pickup>, overlaps: Overlap): (r: GameState)
    requires -10.0 <= wobble <= 10.0
    requires 0.0 <= rType < 1.0 && 0.0 <= rY < 1.0
    ensures g.isGameOver ==> r == g
    ensures !g.isGameOver ==> r.lastTimestamp == Some(now)
    ensures !g.isGameOver && FrameDelta(g.lastTimestamp, now).None? ==> r == g.(lastTimestamp := Some(now))
    ensures !g.isGameOver && !Present(g.lastTimestamp) ==> r.frameCount == g.frameCount
    ensures !g.isGameOver && FrameDelta(g.lastTimestamp, now).Some? ==>
      r == Tick(g.(lastTimestamp := Some(now)), FrameDelta(g.lastTimestamp, now).value,
                wobble, rType, rY, pickup, overlaps)
  {
    if g.isGameOver then g
    else
      var g1 := g.(lastTimestamp := Some(now));
      match FrameDelta(g.lastTimestamp, now)
      case None => g1
      case Some(dt) => Tick(g1, dt, wobble, rType, rY, pickup, overlaps)
  }

  /** An animation frame keeps the invariant, and the frame that follows a
      restart runs no tick. */
  lemma FrameKeepsInv(g: GameState, now: real, wobble: real, rType: real, rY: real,
                      pickup: Option<Pickup>, overlaps: Overlap)
    requires Inv(g)
    requires -10.0 <= wobble <= 10.0
    requires 0.0 <= rType < 1.0 && 0.0 <= rY < 1.0
    ensures Inv(Frame(g, now, wobble, rType, rY, pickup, overlaps))
  {
    var d := FrameDelta(g.lastTimestamp, now);
    if !g.isGameOver && d.Some? {
      TickKeepsInv(g.(lastTimestamp := Some(now)), d.value, wobble, rType, rY, pickup, overlaps);
    }
  }

  lemma FrameAfterRestartSkips(g: GameState, rType: real, rY: real, pickup: Option<Pickup>, overlaps: Overlap,
                               now: real, wobble: real, rType2: real, rY2: real, pickup2: Option<Pickup>)
    requires 0.0 <= rType < 1.0 && 0.0 <= rY < 1.0
    requires -10.0 <= wobble <= 10.0
    requires 0.0 <= rType2 < 1.0 && 0.0 <= rY2 < 1.0
    ensures var r := Restart(g, rType, rY, pickup, overlaps);
      Frame(r, now, wobble, rType2, rY2, pickup2, overlaps) == if r.isGameOver then r else r.(lastTimestamp := Some(now))
  {
  }

  // ---------------------------------------------------------------- sessions

  /** The inputs of one tick: the time step, the wobble, the two random
      draws of a spawn, and the collectible scan's answer. */
  datatype TickInput = TickInput(dt: real, wobble: real, rType: real, rY: real, pickup: Option<Pickup>)

  predicate InRange(t: TickInput) {
    -10.0 <= t.wobble <= 10.0 && 0.0 <= t.rType < 1.0 && 0.0 <= t.rY < 1.0
  }

  /** A sequence of ticks, in order. */
  function Run(g: GameState, ins: seq<TickInput>, overlaps: Overlap): GameState
    requires forall i :: 0 <= i < |ins| ==> InRange(ins[i])
    decreases |ins|
  {
    if |ins| == 0 then g
    else
      var t := ins[0];
      assert InRange(t);
      Run(Tick(g, t.dt, t.wobble, t.rType, t.rY, t.pickup, overlaps), ins[1..], overlaps)
  }

  /** Over any number of ticks the invariant holds, the score and the level
      never go down, and the started flag is kept. */
  lemma {:induction false} RunKeepsInv(g: GameState, ins: seq<TickInput>, overlaps: Overlap)
    requires Inv(g)
    requires forall i :: 0 <= i < |ins| ==> InRange(ins[i])
    ensures var r := Run(g, ins, overlaps);
      && Inv(r)
      && r.score >= g.score
      && r.difficulty.level >= g.difficulty.level
      && r.isGameStarted == g.isGameStarted
    decreases |ins|
  {
    if |ins| > 0 {
      var t := ins[0];
      assert InRange(t);
      TickKeepsInv(g, t.dt, t.wobble, t.rType, t.rY, t.pickup, overlaps);
      LevelNeverDecreases(g, t.dt, t.wobble, t.rType, t.rY, t.pickup, overlaps);
      RunKeepsInv(Tick(g, t.dt, t.wobble, t.rType, t.rY, t.pickup, overlaps), ins[1..], overlaps);
    }
  }

  /** Game over is terminal: once it holds, no sequence of ticks changes
      anything, and a session that ends stays ended. */
  lemma {:induction false} GameOverIsTerminal(g: GameState, ins: seq<TickInput>, overlaps: Overlap)
    requires forall i :: 0 <= i < |ins| ==> InRange(ins[i])
    ensures g.isGameOver ==> Run(g, ins, overlaps) == g
    decreases |ins|
  {
    if |ins| > 0 && g.isGameOver {
      GameOverIsTerminal(g, ins[1..], overlaps);
    }
  }

  /** Every tick of a run that has not ended counts one frame: after a run
      that ends not over, the frame counter grew by the number of ticks. */
  lemma {:induction false} RunCountsFrames(g: GameState, ins: seq<TickInput>, overlaps: Overlap)
    requires forall i :: 0 <= i < |ins| ==> InRange(ins[i])
    ensures !Run(g, ins, overlaps).isGameOver ==> Run(g, ins, overlaps).frameCount == g.frameCount + |ins|
    decreases |ins|
  {
    if |ins| > 0 {
      var t := ins[0];
      assert InRange(t);
      var g1 := Tick(g, t.dt, t.wobble, t.rType, t.rY, t.pickup, overlaps);
      RunCountsFrames(g1, ins[1..], overlaps);
      GameOverIsTerminal(g1, ins[1..], overlaps);
    }
  }
}

=== FILE: obstacles.dfy ===
/** Obstacles and the manager that moves, culls and spawns them. */
module Obstacles {
  import opened Shapes

  /** Every obstacle moves left by this much per tick. The manager's update
      takes no speed argument, so the world speed of the difficulty
      controller never reaches obstacles. */
  const Speed: real := 5.0
  /** Minimum gap between the spawn edge and the newest obstacle. */
  const MinDistance: real := 300.0
  const InitialSpawnInterval: int := 120

  /** The obstacle type. The four named types are the ones the manager
      spawns; `Other` stands for every type name that is none of the four,
      which is why it carries no name. */
  datatype Kind = Cabinet | Chair | Monitor | Printer | Other

  /** The manager's list of spawnable types, in the order a random index
      selects from. */
  const SpawnKinds: seq<Kind> := [Cabinet, Chair, Monitor, Printer]

  /** Width and height of each type (`setDimensions`). */
  function Dimensions(k: Kind): (wh: (real, real))
    ensures wh.0 > 0.0 && wh.1 > 0.0
  {
    match k
    case Cabinet => (60.0, 100.0)
    case Chair => (50.0, 70.0)
    case Monitor => (40.0, 40.0)
    case Printer => (80.0, 60.0)
    case Other => (50.0, 80.0)
  }

  datatype Obstacle = Obstacle(x: real, y: real, kind: Kind, width: real, height: real)

  /** An obstacle's size is the one its type fixes. */
  ghost predicate Shaped(o: Obstacle) {
    (o.width, o.height) == Dimensions(o.kind)
  }

  ghost predicate AllShaped(s: seq<Obstacle>) {
    forall i :: 0 <= i < |s| ==> Shaped(s[i])
  }

  /** The constructor: position and type as given, size from the type. */
  function NewObstacle(x: real, y: real, kind: Kind): (o: Obstacle)
    ensures o.x == x && o.y == y && o.kind == kind
    ensures kind == Cabinet ==> o.width == 60.0 && o.height == 100.0
    ensures kind == Chair ==> o.width == 50.0 && o.height == 70.0
    ensures kind == Monitor ==> o.width == 40.0 && o.height == 40.0
    ensures kind == Printer ==> o.width == 80.0 && o.height == 60.0
    ensures kind == Other ==> o.width == 50.0 && o.height == 80.0
  {
    var wh := Dimensions(kind);
    Obstacle(x, y, kind, wh.0, wh.1)
  }

  /** One tick of motion. */
  function Move(o: Obstacle): (r: Obstacle)
    ensures o.x - r.x == Speed
    ensures r.y == o.y && r.kind == o.kind && r.width == o.width && r.height == o.height
  {
    o.(x := o.x - Speed)
  }

  /** Offscreen once the right edge has passed the left border. */
  predicate IsOffscreen(o: Obstacle) {
    o.x + o.width < 0.0
  }

  function GetBounds(o: Obstacle): (b: Rect)
    ensures b.x == o.x && b.y == o.y && b.width == o.width && b.height == o.height
  {
    Rect(o.x, o.y, o.width, o.height)
  }

  /** A moved obstacle keeps its shape, and its bounds are shifted by the
      speed; it is offscreen exactly when its right edge was already within
      one step of the left border. */
  lemma MoveKeepsShape(o: Obstacle)
    requires Shaped(o)
    ensures Shaped(Move(o))
    ensures GetBounds(Move(o)) == ShiftX(GetBounds(o), -Speed)
    ensures IsOffscreen(Move(o)) <==> o.x + o.width < Speed
  {
  }

  /** Every obstacle moved by one tick, in order. */
  function MoveAll(s: seq<Obstacle>): (r: seq<Obstacle>)
    ensures |r| == |s|
    ensures forall i :: 0 <= i < |s| ==> r[i] == Move(s[i])
  {
    if |s| == 0 then [] else [Move(s[0])] + MoveAll(s[1..])
  }

  /** The obstacles that are still on screen, in their original order. */
  function Cull(s: seq<Obstacle>): (r: seq<Obstacle>)
    ensures |r| <= |s|
    ensures forall o :: o in r <==> o in s && !IsOffscreen(o)
  {
    if |s| == 0 then []
    else if IsOffscreen(s[0]) then Cull(s[1..])
    else [s[0]] + Cull(s[1..])
  }

  /** Culling works item by item, so it commutes with concatenation: the
      survivors of a list are the survivors of its first part followed by the
      survivors of its second part. Together with the one-element case this
      pins culling down to an order-preserving filter. */
  lemma {:induction false} CullAppend(a: seq<Obstacle>, b: seq<Obstacle>)
    ensures Cull(a + b) == Cull(a) + Cull(b)
  {
    if |a| == 0 {
      assert a + b == b;
    } else {
      assert (a + b)[1..] == a[1..] + b;
      CullAppend(a[1..], b);
    }
  }

  lemma CullSingle(o: Obstacle)
    ensures Cull([o]) == if IsOffscreen(o) then [] else [o]
  {
  }

  /** A list with nothing offscreen is kept as it is. */
  lemma {:induction false} CullKeepsOnscreen(s: seq<Obstacle>)
    requires forall i :: 0 <= i < |s| ==> !IsOffscreen(s[i])
    ensures Cull(s) == s
  {
    if |s| > 0 {
      CullKeepsOnscreen(s[1..]);
    }
  }

  lemma {:induction false} CullKeepsShape(s: seq<Obstacle>)
    requires AllShaped(s)
    ensures AllShaped(Cull(s))
  {
    if |s| > 0 {
      CullKeepsShape(s[1..]);
    }
  }

  /** Manager state. `gameWidth` is the spawn edge. The initial
      `lastObstacleX` is written once and never read, so it is omitted. */
  datatype Manager = Manager(
    gameWidth: real,
    gameHeight: real,
    obstacles: seq<Obstacle>,
    minDistance: real,
    spawnTimer: int,
    spawnInterval: int)

  function NewManager(gameWidth: real, gameHeight: real): (m: Manager)
    ensures m.gameWidth == gameWidth && m.gameHeight == gameHeight
    ensures m.obstacles == [] && m.spawnTimer == 0
    ensures m.minDistance == 300.0 && m.spawnInterval == 120
  {
    Manager(gameWidth, gameHeight, [], MinDistance, 0, InitialSpawnInterval)
  }

  /** The manager's standing invariant: a positive interval, a timer below
      it, and every live obstacle shaped by its type. */
  ghost predicate Valid(m: Manager) {
    && 1 <= m.spawnInterval
    && 0 <= m.spawnTimer < m.spawnInterval
    && AllShaped(m.obstacles)
  }

  /** A spawn is suppressed while the newest obstacle is still closer than
      `minDistance` to the spawn edge. */
  predicate Throttled(m: Manager) {
    |m.obstacles| > 0 && m.gameWidth - m.obstacles[|m.obstacles| - 1].x < m.minDistance
  }

  /** A uniformly drawn index into the four spawnable types:
      `Math.floor(Math.random() * 4)`, with the random draw as input. */
  function PickKind(rType: real): (k: Kind)
    requires 0.0 <= rType < 1.0
    ensures k in SpawnKinds
    ensures k == Cabinet <==> rType < 0.25
    ensures k == Chair <==> 0.25 <= rType < 0.5
    ensures k == Monitor <==> 0.5 <= rType < 0.75
    ensures k == Printer <==> 0.75 <= rType
  {
    var i := (rType * 4.0).Floor;
    assert 0 <= i < 4 by {
      assert (rType * 4.0).Floor as real <= rType * 4.0 < 4.0;
    }
    SpawnKinds[i]
  }

  /** `r * span + low`: a point a fraction `r` of the way through a band of
      height `span` starting at `low`. */
  function Within(r: real, low: real, span: real): (y: real)
    requires 0.0 <= r < 1.0
    ensures span > 0.0 ==> low <= y < low + span
  {
    assert span > 0.0 ==> r * span < span by {
      if span > 0.0 {
        assert span - r * span == (1.0 - r) * span;
      }
    }
    r * span + low
  }

  /** The vertical placement of a new obstacle of type `k` and height `h`:
      cabinets stand on the ground, monitors fly in a band, everything else
      sits up to 100 above the ground. `rY` is the random draw in [0, 1). */
  function SpawnY(k: Kind, h: real, gameHeight: real, rY: real): real
    requires 0.0 <= rY < 1.0
  {
    match k
    case Monitor => Within(rY, 50.0, gameHeight - 200.0)
    case Cabinet => gameHeight - h
    case _ => gameHeight - h - rY * 100.0
  }

  /** `spawnObstacle`: unless throttled, append one obstacle of a random
      type at the spawn edge. */
  function SpawnObstacle(m: Manager, rType: real, rY: real): (r: Manager)
    requires 0.0 <= rType < 1.0 && 0.0 <= rY < 1.0
    ensures Throttled(m) ==> r == m
    ensures !Throttled(m) ==>
      && |r.obstacles| == |m.obstacles| + 1
      && r.obstacles[..|m.obstacles|] == m.obstacles
      && r == m.(obstacles := r.obstacles)
    ensures !Throttled(m) ==>
      var o := r.obstacles[|m.obstacles|];
      && o.x == m.gameWidth
      && o.kind == PickKind(rType)
      && o.kind in SpawnKinds
      && Shaped(o)
      && (o.kind == Cabinet ==> o.y == m.gameHeight - 100.0)
      && (o.kind == Monitor && m.gameHeight > 200.0 ==> 50.0 <= o.y < m.gameHeight - 150.0)
      && (o.kind in {Chair, Printer} ==> m.gameHeight - o.height - 100.0 < o.y <= m.gameHeight - o.height)
  {
    if Throttled(m) then m
    else
      var k := PickKind(rType);
      var probe := NewObstacle(0.0, 0.0, k);
      var o := NewObstacle(m.gameWidth, SpawnY(k, probe.height, m.gameHeight, rY), k);
      m.(obstacles := m.obstacles + [o])
  }

  /** One tick of the manager: move every obstacle, drop the offscreen ones,
      advance the timer, and when it reaches the interval try one spawn and
      restart the timer (also when the spawn was throttled). */
  function Update(m: Manager, rType: real, rY: real): (r: Manager)
    requires 0.0 <= rType < 1.0 && 0.0 <= rY < 1.0
    ensures var kept := Cull(MoveAll(m.obstacles));
      && kept <= r.obstacles
      && |r.obstacles| <= |kept| + 1
      && (m.spawnTimer + 1 < m.spawnInterval ==> r.obstacles == kept)
      && (m.spawnTimer + 1 >= m.spawnInterval ==>
            r.obstacles == SpawnObstacle(m.(obstacles := kept), rType, rY).obstacles)
    ensures r.spawnTimer == if m.spawnTimer + 1 >= m.spawnInterval then 0 else m.spawnTimer + 1
    ensures 1 <= m.spawnInterval ==> r.spawnTimer < r.spawnInterval
    ensures r.gameWidth == m.gameWidth && r.gameHeight == m.gameHeight
    ensures r.minDistance == m.minDistance && r.spawnInterval == m.spawnInterval
  {
    var moved := m.(obstacles := Cull(MoveAll(m.obstacles)), spawnTimer := m.spawnTimer + 1);
    if moved.spawnTimer >= moved.spawnInterval then
      SpawnObstacle(moved, rType, rY).(spawnTimer := 0)
    else
      moved
  }

  /** `checkCollision(player)`: some live obstacle's bounds overlap the
      player's bounds under the rectangle test. */
  function CheckCollision(s: seq<Obstacle>, player: Rect, overlaps: Overlap): (hit: bool)
    ensures hit <==> exists i :: 0 <= i < |s| && overlaps(player, GetBounds(s[i]))
  {
    if |s| == 0 then false
    else overlaps(player, GetBounds(s[0])) || CheckCollision(s[1..], player, overlaps)
  }

  /** `reset`: clear the obstacles and the timer; the interval and the
      spacing rule survive. */
  function Reset(m: Manager): (r: Manager)
    ensures r.obstacles == [] && r.spawnTimer == 0
    ensures r.spawnInterval == m.spawnInterval && r.minDistance == m.minDistance
    ensures r.gameWidth == m.gameWidth && r.gameHeight == m.gameHeight
  {
    m.(obstacles := [], spawnTimer := 0)
  }

  /** A new manager is valid; an update makes it valid from any state with
      a positive interval (also one whose timer the difficulty controller
      left at or above a freshly lowered interval), and a reset keeps it
      valid: the timer stays below the interval and every obstacle keeps the
      size its type fixes. */
  lemma NewManagerValid(w: real, h: real)
    ensures Valid(NewManager(w, h))
  {
  }

  lemma UpdateKeepsValid(m: Manager, rType: real, rY: real)
    requires 1 <= m.spawnInterval && 0 <= m.spawnTimer && AllShaped(m.obstacles)
    requires 0.0 <= rType < 1.0 && 0.0 <= rY < 1.0
    ensures Valid(Update(m, rType, rY))
  {
    MoveAllKeepsShape(m.obstacles);
    CullKeepsShape(MoveAll(m.obstacles));
  }

  lemma ResetKeepsValid(m: Manager)
    requires Valid(m)
    ensures Valid(Reset(m))
  {
  }

  lemma MoveAllKeepsShape(s: seq<Obstacle>)
    requires AllShaped(s)
    ensures AllShaped(MoveAll(s))
  {
    forall i | 0 <= i < |s|
      ensures Shaped(MoveAll(s)[i])
    {
      MoveKeepsShape(s[i]);
    }
  }

  /** Scenario: the newest obstacle is 50 from the spawn edge, less than the
      300 minimum, so a spawn attempt appends nothing. */
  lemma ThrottleScenario(m: Manager, rType: real, rY: real)
    requires m.minDistance == 300.0 && |m.obstacles| > 0
    requires m.gameWidth - m.obstacles[|m.obstacles| - 1].x == 50.0
    requires 0.0 <= rType < 1.0 && 0.0 <= rY < 1.0
    ensures |SpawnObstacle(m, rType, rY).obstacles| == |m.obstacles|
  {
  }
}

=== FILE: path_utils.dfy ===
/** The path normaliser: every backslash of a resource path becomes a forward
    slash, so that one path spelling works as a web URL. */
module PathUtils {

  const Backslash: char := '\\'
  const Slash: char := '/'

  /** The rewrite applied to one character. */
  function FixChar(c: char): char {
    if c == Backslash then Slash else c
  }

  /** `path.replace(/\\/g, '/')`: a global replacement of `\` by `/`. */
  function NormalizePath(path: string): (r: string)
    ensures |r| == |path|
    ensures forall i :: 0 <= i < |path| && path[i] == Backslash ==> r[i] == Slash
    ensures forall i :: 0 <= i < |path| && path[i] != Backslash ==> r[i] == path[i]
    ensures Backslash !in r
  {
    if |path| == 0 then [] else [FixChar(path[0])] + NormalizePath(path[1..])
  }

  /** Normalising twice is the same as normalising once. */
  lemma NormalizeIdempotent(path: string)
    ensures NormalizePath(NormalizePath(path)) == NormalizePath(path)
  {
  }

  /** A path with no backslash is returned unchanged, and only such a path is. */
  lemma NormalizeFixedPoints(path: string)
    ensures NormalizePath(path) == path <==> Backslash !in path
  {
  }

  /** The rewrite works character by character, so it distributes over
      concatenation: a path can be normalised piece by piece. */
  lemma NormalizeConcat(a: string, b: string)
    ensures NormalizePath(a + b) == NormalizePath(a) + NormalizePath(b)
  {
  }
}

=== FILE: player.dfy ===
/** The player: vertical physics with a floor clamp, the speed-boost
    displacement, and the power-up state machine over four effects. Fields
    the constructor sets once and nothing reassigns (size, gravity, jump
    force) are constants; `speed` is reassigned when a speed boost expires,
    so it stays a field. */
module Players {
  import opened Shapes

  const Width: real := 40.0
  const Height: real := 40.0
  const Gravity: real := 0.5
  const JumpForce: real := -10.0
  /** The clamp line for the player's bottom edge. */
  const FloorY: real := 600.0
  const MagnetRange: real := 300.0
  /** A speed boost lasts until the score has grown by this much. */
  const SpeedBonus: int := 50
  /** While boosting, x sits this far ahead of its base, plus the wobble. */
  const BoostOffset: real := 50.0
  const BoostStep: real := 5.0

  /** The four power-up effects, in the order the player's effect table
      lists them. */
  datatype Effect = SpeedBoost | Invincible | Magnet | DoublePoints

  /** The effect an effect name selects; any other name selects none. */
  function ParseEffect(name: string): (e: Option<Effect>)
    ensures e == Some(SpeedBoost) <==> name == "speed"
    ensures e == Some(Invincible) <==> name == "invincible"
    ensures e == Some(Magnet) <==> name == "magnet"
    ensures e == Some(DoublePoints) <==> name == "double_points"
  {
    if name == "speed" then Some(SpeedBoost)
    else if name == "invincible" then Some(Invincible)
    else if name == "magnet" then Some(Magnet)
    else if name == "double_points" then Some(DoublePoints)
    else None
  }

  /** One effect's state: whether it is active and its remaining duration
      (milliseconds). */
  datatype Timer = Timer(active: bool, duration: real)

  /** The effect table. The speed boost also carries the score at which it
      ends, and the magnet its range. */
  datatype PowerUps = PowerUps(
    speed: Timer,
    targetScore: int,
    invincible: Timer,
    magnet: Timer,
    range: real,
    doublePoints: Timer)
  {
    function Get(e: Effect): Timer {
      match e
      case SpeedBoost => speed
      case Invincible => invincible
      case Magnet => magnet
      case DoublePoints => doublePoints
    }

    function Set(e: Effect, t: Timer): (r: PowerUps)
      ensures r.Get(e) == t
      ensures forall f :: f != e ==> r.Get(f) == Get(f)
      ensures r.targetScore == targetScore && r.range == range
    {
      match e
      case SpeedBoost => this.(speed := t)
      case Invincible => this.(invincible := t)
      case Magnet => this.(magnet := t)
      case DoublePoints => this.(doublePoints := t)
    }
  }

  /** No effect lingers: an active effect always has time left. */
  ghost predicate NoStaleEffect(p: PowerUps) {
    forall e :: p.Get(e).active ==> p.Get(e).duration > 0.0
  }

  datatype Player = Player(
    x: real,
    y: real,
    velocity: real,
    speed: real,
    baseX: real,
    boostDistance: real,
    powerUps: PowerUps)

  /** The player's standing invariant: the speed factor is 1 (it is only
      ever assigned 1) and the bottom edge is not below the clamp line. */
  ghost predicate Valid(p: Player) {
    p.speed == 1.0 && p.y + Height <= FloorY
  }

  /** The constructor: at rest at (x, y), all effects off. */
  function NewPlayer(x: real, y: real): (p: Player)
    ensures p.x == x && p.baseX == x && p.y == y
    ensures p.velocity == 0.0 && p.speed == 1.0 && p.boostDistance == 0.0
    ensures forall e :: !p.powerUps.Get(e).active && p.powerUps.Get(e).duration == 0.0
    ensures p.powerUps.range == 300.0 && p.powerUps.targetScore == 0
  {
    var off := Timer(false, 0.0);
    Player(x, y, 0.0, 1.0, x, 0.0, PowerUps(off, 0, off, off, MagnetRange, off))
  }

  /** `after` is `before` decayed by `dt`: an active effect loses exactly
      `dt` and stays active iff time is left; an inactive one is untouched. */
  ghost predicate DecayedBy(before: Timer, after: Timer, dt: real) {
    && (before.active ==> after.duration == before.duration - dt && (after.active <==> after.duration > 0.0))
    && (!before.active ==> after == before)
  }

  function Decay(t: Timer, dt: real): (r: Timer)
    ensures DecayedBy(t, r, dt)
  {
    if !t.active then t
    else
      var d := t.duration - dt;
      Timer(d > 0.0, d)
  }

  /** `updatePowerUps(dt)`: decay every effect; a speed boost that expires
      restores the speed factor to 1. */
  function UpdatePowerUps(p: Player, dt: real): (r: Player)
    ensures forall e :: DecayedBy(p.powerUps.Get(e), r.powerUps.Get(e), dt)
    ensures NoStaleEffect(r.powerUps)
    ensures r.powerUps.targetScore == p.powerUps.targetScore && r.powerUps.range == p.powerUps.range
    ensures r == p.(powerUps := r.powerUps, speed := r.speed)
    ensures r.speed == if p.powerUps.speed.active && !r.powerUps.speed.active then 1.0 else p.speed
  {
    var u := p.powerUps;
    var decayed := u.(
      speed := Decay(u.speed, dt),
      invincible := Decay(u.invincible, dt),
      magnet := Decay(u.magnet, dt),
      doublePoints := Decay(u.doublePoints, dt));
    var speedEnded := u.speed.active && !decayed.speed.active;
    p.(powerUps := decayed, speed := if speedEnded then 1.0 else p.speed)
  }

  /** The vertical step: gravity, then motion, then the floor clamp. */
  function Fall(p: Player): (r: Player)
    ensures r.y + Height <= FloorY
    ensures var v := p.velocity + Gravity;
      if p.y + v + Height > FloorY then r.y == FloorY - Height && r.velocity == 0.0
      else r.y == p.y + v && r.velocity == v
    ensures r == p.(y := r.y, velocity := r.velocity)
  {
    var v := p.velocity + Gravity;
    var y := p.y + v;
    if y + Height > FloorY then p.(y := FloorY - Height, velocity := 0.0)
    else p.(y := y, velocity := v)
  }

  /** The horizontal step of a speed boost: ahead of the base by 50 plus the
      wobble while the target score is not reached, then back to the base and
      the boost ends. `wobble` stands for the wall-clock sine term, within
      [-10, 10]. */
  function Boost(p: Player, score: int, wobble: real): (r: Player)
    requires -10.0 <= wobble <= 10.0
    ensures !p.powerUps.speed.active ==> r.x == p.baseX && r.powerUps == p.powerUps
    ensures p.powerUps.speed.active && score < p.powerUps.targetScore ==>
      p.baseX + 40.0 <= r.x <= p.baseX + 60.0 && r.powerUps == p.powerUps
    ensures p.powerUps.speed.active && score >= p.powerUps.targetScore ==>
      r.x == p.baseX && r.powerUps == p.powerUps.(speed := p.powerUps.speed.(active := false))
    ensures r == p.(x := r.x, powerUps := r.powerUps, boostDistance := r.boostDistance)
  {
    var s := p.powerUps.speed;
    if !s.active then p.(x := p.baseX)
    else if score < p.powerUps.targetScore then
      p.(x := p.baseX + wobble + BoostOffset, boostDistance := p.boostDistance + BoostStep)
    else
      p.(x := p.baseX, powerUps := p.powerUps.(speed := s.(active := false)), boostDistance := 0.0)
  }

  /** `update(dt, score)`: fall, boost, then decay the effects. */
  function Update(p: Player, dt: real, score: int, wobble: real): (r: Player)
    requires -10.0 <= wobble <= 10.0
  {
    UpdatePowerUps(Boost(Fall(p), score, wobble), dt)
  }

  /** What one update promises: the bottom edge is clamped, the velocity is
      zeroed whenever the clamp fires, the boost decides x, the effects other
      than the boost decay by exactly `dt`, the boost decays only while its
      target is not reached (reaching it switches it off untouched), and
      afterwards no effect is
      active without time left. */
  lemma UpdateSpec(p: Player, dt: real, score: int, wobble: real)
    requires -10.0 <= wobble <= 10.0
    ensures var r := Update(p, dt, score, wobble);
      && r.y + Height <= FloorY
      && (p.y + p.velocity + Gravity + Height > FloorY ==> r.y == FloorY - Height && r.velocity == 0.0)
      && (p.y + p.velocity + Gravity + Height <= FloorY ==> r.velocity == p.velocity + Gravity && r.y == p.y + r.velocity)
      && (!p.powerUps.speed.active ==> r.x == p.baseX)
      && (p.powerUps.speed.active && score < p.powerUps.targetScore ==> p.baseX + 40.0 <= r.x <= p.baseX + 60.0)
      && (p.powerUps.speed.active && score >= p.powerUps.targetScore ==> r.x == p.baseX && !r.powerUps.speed.active)
      && (forall e :: e != SpeedBoost ==> DecayedBy(p.powerUps.Get(e), r.powerUps.Get(e), dt))
      && (!p.powerUps.speed.active ==> r.powerUps.speed == p.powerUps.speed)
      && (p.powerUps.speed.active && score < p.powerUps.targetScore ==> DecayedBy(p.powerUps.speed, r.powerUps.speed, dt))
      && (p.powerUps.speed.active && score >= p.powerUps.targetScore ==> r.powerUps.speed == p.powerUps.speed.(active := false))
      && NoStaleEffect(r.powerUps)
      && r.baseX == p.baseX
      && (Valid(p) ==> Valid(r))
  {
  }

  /** `jump`: the velocity becomes the jump force scaled by the speed
      factor; nothing else changes. */
  function Jump(p: Player): (r: Player)
    ensures Valid(p) ==> r.velocity == -10.0
    ensures r == p.(velocity := r.velocity)
  {
    p.(velocity := JumpForce * p.speed)
  }

  function GetBounds(p: Player): (b: Rect)
    ensures b == Rect(p.x, p.y, 40.0, 40.0)
  {
    Rect(p.x, p.y, Width, Height)
  }

  /** `applyPowerUp(name, duration, score)`: a known effect becomes active
      with exactly the given duration (a refresh replaces, it does not add);
      a speed boost also aims 50 points above the given score. An empty
      (falsy) or unknown name changes nothing. */
  function ApplyPowerUp(p: Player, name: string, duration: real, score: int): (r: Player)
    ensures ParseEffect(name).None? ==> r == p
    ensures ParseEffect(name).Some? ==>
      var e := ParseEffect(name).value;
      && r.powerUps.Get(e) == Timer(true, duration)
      && (forall f :: f != e ==> r.powerUps.Get(f) == p.powerUps.Get(f))
      && r.powerUps.targetScore == (if e == SpeedBoost then score + SpeedBonus else p.powerUps.targetScore)
      && r.powerUps.range == p.powerUps.range
      && r == p.(powerUps := r.powerUps)
  {
    if name == "" then p
    else
      match ParseEffect(name)
      case None => p
      case Some(e) =>
        var u := p.powerUps.Set(e, Timer(true, duration));
        p.(powerUps := if e == SpeedBoost then u.(targetScore := score + SpeedBonus) else u)
  }

  /** Applying an effect twice keeps only the second duration, and the
      second application's score sets the boost target. */
  lemma RefreshNotStack(p: Player, name: string, d1: real, d2: real, s1: int, s2: int)
    requires ParseEffect(name).Some?
    ensures var e := ParseEffect(name).value;
      var r := ApplyPowerUp(ApplyPowerUp(p, name, d1, s1), name, d2, s2);
      && r.powerUps.Get(e) == Timer(true, d2)
      && (e == SpeedBoost ==> r.powerUps.targetScore == s2 + 50)
      && r == ApplyPowerUp(p, name, d2, s2)
  {
  }

  /** While an effect stays active, each decay step shortens its remaining
      time by exactly `dt`; it deactivates on the first step that brings it
      to zero or below, never one step later. */
  lemma DecayExpiresOnTime(t: Timer, dt: real)
    requires t.active && dt >= 0.0
    ensures Decay(t, dt).duration <= t.duration
    ensures !Decay(t, dt).active <==> t.duration <= dt
  {
  }
}

=== FILE: shapes.dfy ===
/** Values shared by every entity of the game: the axis-aligned rectangle that
    each `getBounds` returns, the rectangle test used for collisions, and an
    optional value for "nothing happened" answers. */
module Shapes {

  /** An axis-aligned bounding box: top-left corner and size. */
  datatype Rect = Rect(x: real, y: real, width: real, height: real)

  /** The global rectangle-overlap test (`checkCollision(a, b)`) is defined
      outside the modelled files, so every operation that needs it receives
      it as a parameter and nothing is assumed about it. */
  type Overlap = (Rect, Rect) -> bool

  /** The box `r` moved horizontally by `dx`. */
  function ShiftX(r: Rect, dx: real): (s: Rect)
    ensures s.y == r.y && s.width == r.width && s.height == r.height
    ensures s.x - r.x == dx
  {
    r.(x := r.x + dx)
  }

  datatype Option<+T> = None | Some(value: T)
}
